=== FILE: README.md ===
# Duration extraction and anomaly alerting, modelled in Dafny

The repository trains a Random Cut Forest on Lambda invocation durations read
from CloudWatch logs that Firehose delivered to S3. A second Lambda scores
durations at the deployed endpoint and publishes an SNS alert when a score is
too high. Almost all of it is calls into AWS. This project models the two
pieces of logic between those calls:

- **Training input** (`RCFCodeS3ObjectsRead.py`). `extract_durations` keeps the
  `durationMs` of every `REPORT` log entry, in order. The surrounding `try` block
  lists the log files and fetches each one. It skips files whose fetch did not
  return 200, extends the duration list file by file, and raises
  `"Error processing S3 objects: …"` when the listing is empty, when nothing was
  extracted, or when anything inside raised.
  Modules: `DurationExtractor` (extractor.dfy) and `LogBatch` (batch.dfy).
- **Scoring and alerting** (`LambdaForSagemakerEndpointInvocation.py`).
  `lambda_handler` reads the scores from the endpoint's JSON body and zips them
  with the durations. It keeps the pairs whose score is strictly above
  `ANOMALY_THRESHOLD` as anomalies, publishes an alert when there are any, and
  returns 200 with all pairs. Errors become 500 with an `"AWS error: "` or
  `"Unhandled error: "` prefix.
  Modules: `Scoring` (scoring.dfy) and `EndpointHandler` (handler.dfy).

Shared pieces:

- `Wrappers` (wrappers.dfy) holds `Option`, `Result`, and `Append`. `Append`
  sequences two steps that raise.
- `Json` (json.dfy) holds decoded JSON values and the Python operations applied
  to them. These are `float(v)`, `v[key]`, and the built-in exceptions they raise.

External effects are parameters:

- The S3 listing and fetches become an `Option<seq<FetchedFile>>`. `None` is a listing response without `Contents`, and each file is (key, status, decoded lines).
- The endpoint call becomes a `CallOutcome` holding the decoded body, a
  `ClientError` message, or another error.
- SNS `publish` is a function from the alert to a `CallOutcome`.
- Python's text-to-float parsing is `parse: string -> Option<real>`.
- The text of built-in exceptions is `describe: Fault -> string`.

The handler is a pure function of these inputs, so two calls with the same
external outcomes give the same response.

Three behaviours of the code a reader might not expect:

- An entry without `eventType` raises `KeyError`; it is not skipped.
- Scores and durations of different lengths are truncated by `zip`; this is not
  an error.
- A failed alert publish turns the response into a 500.

## Model

| member | source | states |
|---|---|---|
| DurationExtractor.EntryDurations | RCFCodeS3ObjectsRead.py:21-22 | one entry raises iff it is not well formed: a non-dict raises the TypeError of indexing it, a dict without `eventType` the KeyError for `eventType`, and a report whose `durationMs` does not convert the `float` failure on that value; otherwise a non-report contributes nothing and a report exactly its converted duration |
| DurationExtractor.Extract | RCFCodeS3ObjectsRead.py:18-23 | `extract_durations`: a successful extraction has exactly one duration per REPORT entry that has `durationMs` |
| DurationExtractor.ExtractSucceedsIff | RCFCodeS3ObjectsRead.py:18-23 | extraction succeeds iff every entry is well formed, so an entry without `eventType` or with an unconvertible report duration fails the whole call instead of being skipped |
| DurationExtractor.ExtractContents | RCFCodeS3ObjectsRead.py:19-23 | on success the output length is the number of REPORT entries that have `durationMs`, and the i-th output is the converted duration of the i-th such entry |
| DurationExtractor.ExtractFirstFault | RCFCodeS3ObjectsRead.py:20-22 | on failure the error is the exception raised by the first entry that is not well formed; no partial list is returned |
| DurationExtractor.ExtractAppend | RCFCodeS3ObjectsRead.py:20-22 | extracting from `a + b` equals extracting from `a` then from `b`, with the first error winning |
| DurationExtractor.ExtractDurations | RCFCodeS3ObjectsRead.py:18-23 | the loop that appends entry by entry computes the extraction, including its error |
| LogBatch.FileDurations | RCFCodeS3ObjectsRead.py:44-46 | one listed file: a non-200 fetch contributes nothing, a 200 fetch whose lines do not decode raises, and a decoded one contributes exactly its extraction |
| LogBatch.Collect | RCFCodeS3ObjectsRead.py:34-48 | the loop over the listing; it succeeds only if every file fetched with status 200 decoded |
| LogBatch.Aggregate | RCFCodeS3ObjectsRead.py:28-53 | an absent or empty listing fails with "no objects"; a fault raised by the loop is re-raised wrapped; an empty collection fails with "no durations"; success carries exactly the collected durations, which are non-empty |
| LogBatch.ErrorMessage | RCFCodeS3ObjectsRead.py:31-53 | every batch error message starts with `"Error processing S3 objects: "`, followed by `"No objects found in s3://<bucket>/<prefix>"` for an empty listing, the fixed no-durations text, or the raised exception's text |
| LogBatch.CollectAppend | RCFCodeS3ObjectsRead.py:34-48 | collecting over a split listing equals collecting each part, in order |
| LogBatch.SkippedFilesIgnored | RCFCodeS3ObjectsRead.py:44-48 | files whose fetch did not return 200 change nothing: collecting the listing equals collecting only its 200 files |
| LogBatch.CollectIsJoinedExtraction | RCFCodeS3ObjectsRead.py:34-46 | when every fetched file decodes, extending per file equals one extraction over the joined lines of all 200 files in listing order |
| LogBatch.AggregateIsJoinedExtraction | RCFCodeS3ObjectsRead.py:28-53 | for a non-empty listing whose fetched files decode, the batch result is the joined extraction, "no durations" when it is empty, or its exception wrapped |
| LogBatch.ReadBatch | RCFCodeS3ObjectsRead.py:28-53 | the listing check, the loop that extends per file and the final empty check compute the batch result |
| Scoring.Zip | LambdaForSagemakerEndpointInvocation.py:40-43 | the pairing has length min(\|durations\|, \|scores\|) and pairs the i-th duration with the i-th score |
| Scoring.Anomalies | LambdaForSagemakerEndpointInvocation.py:46 | the comprehension keeps at most every entry, and only entries scored strictly above the threshold |
| Scoring.AnomalyMembership | LambdaForSagemakerEndpointInvocation.py:46 | an entry is an anomaly iff it is in the output and its score is strictly greater than the threshold |
| Scoring.NormalMembership | LambdaForSagemakerEndpointInvocation.py:46 | an entry is left out iff it is in the output and its score is at most the threshold |
| Scoring.ThresholdIsNormal | LambdaForSagemakerEndpointInvocation.py:46 | an entry whose score equals the threshold is never an anomaly |
| Scoring.AnomaliesAreSubsequence | LambdaForSagemakerEndpointInvocation.py:46 | the anomalies keep their relative order: they are a subsequence of the output |
| Scoring.AnomaliesPartition | LambdaForSagemakerEndpointInvocation.py:46 | anomalies and normal entries together are a permutation of the output (multiset equality) |
| Scoring.AnomaliesAppend | LambdaForSagemakerEndpointInvocation.py:46 | selecting anomalies distributes over concatenation |
| Scoring.AnomaliesNonEmptyIff | LambdaForSagemakerEndpointInvocation.py:40-49 | there is an anomaly iff some score among the first min(\|durations\|, \|scores\|) is strictly above the threshold |
| Scoring.SampleScenario | LambdaForSagemakerEndpointInvocation.py:12-22 | with the built-in test durations and threshold 1.0 (the only values taken from these lines) and the example scores 0.1, 0.1, 0.2, 5.0, 0.05, 0.3, the only anomaly is (100.0, 5.0) |
| EndpointHandler.ScoresAsWritten | LambdaForSagemakerEndpointInvocation.py:37 | line 37 as written: only a dict body is ever read, a bare-list body always fails, and without a `scores` key the read can only succeed with no scores |
| EndpointHandler.ReadScores | LambdaForSagemakerEndpointInvocation.py:37 | the corrected read: it reads only dict or list bodies, reads a bare list exactly as the code reads it under `scores`, and agrees with the code on every other body |
| EndpointHandler.ScoresOfSpec | LambdaForSagemakerEndpointInvocation.py:37 | reading `float(item['score'])` over a list succeeds iff every item is a dict with a convertible `score`, and then yields those scores in order |
| EndpointHandler.ScoresUnderKey | LambdaForSagemakerEndpointInvocation.py:37 | as written, a dict body's `scores` list is read item by item: it succeeds iff every item is a dict with a convertible `score`, yielding those scores in order |
| EndpointHandler.BareListRejectedAsWritten | LambdaForSagemakerEndpointInvocation.py:37 | as written, a bare-list body with one valid item fails, while the corrected read yields its score |
| EndpointHandler.CorrectionOnlyTouchesLists | LambdaForSagemakerEndpointInvocation.py:37 | the corrected read agrees with the code on every body that is not a list; on a list the code raises AttributeError |
| EndpointHandler.BareListRead | LambdaForSagemakerEndpointInvocation.py:37 | the corrected read treats a bare list exactly like the same list under `scores` |
| EndpointHandler.Handle | LambdaForSagemakerEndpointInvocation.py:24-76 | runs line 37 as written; status is 200 or 500; 200 iff JSON headers iff results body; 500 responses have no headers and an error with the AWS or Unhandled prefix; any alert holds only scores above the threshold; an endpoint ClientError gives an AWS error and any other endpoint error an Unhandled error, with no alert; an undecodable body gives an Unhandled error; a bare-list body gives the Unhandled error of the missing `get`; a failed score read gives an Unhandled error with its text; readable scores continue as `Respond` |
| EndpointHandler.HandleCorrected | LambdaForSagemakerEndpointInvocation.py:24-76 | the handler with the corrected read: the same response shape and error mapping as `Handle`, with a failed corrected read giving an Unhandled error and a successful one continuing as `Respond` |
| EndpointHandler.HandleCorrectionOnlyTouchesLists | LambdaForSagemakerEndpointInvocation.py:37 | the corrected handler answers as the code on every invocation except a bare-list body, and there it answers as the code does for the same list under `scores` |
| EndpointHandler.Respond | LambdaForSagemakerEndpointInvocation.py:40-76 | after the scores are read: any alert handed to the publisher is non-empty, carries the threshold, and holds only pairs scored strictly above it; with no alert, or with the one alert published, the response is 200 with the JSON header and every pair; a publish raising ClientError gives the AWS error 500 with its message, and any other publish exception the Unhandled error 500 with its text |
| EndpointHandler.AlertIffAnomalies | LambdaForSagemakerEndpointInvocation.py:49-59 | after the scores are read, an alert is published iff some paired score exceeds the threshold, and it carries the fixed subject and text, the threshold and exactly the anomalies |
| EndpointHandler.SuccessCarriesAllPairs | LambdaForSagemakerEndpointInvocation.py:61-65 | when no alert is due, or the one alert due is published, the response is 200 with the JSON header and every pair, anomalous or not |
| EndpointHandler.PublishFailureIsFatal | LambdaForSagemakerEndpointInvocation.py:49-71 | when anomalies were found and publishing that alert raises a ClientError, the response is the `"AWS error: "` 500 with its message |
| EndpointHandler.QuietRunIgnoresPublisher | LambdaForSagemakerEndpointInvocation.py:49-65 | with no score above the threshold the publisher is not consulted and the response is 200 with all pairs |

## Left out

- S3 listing, presigned URLs, HTTP fetches and `put_object` are I/O. A fetched file is an input (key, status, decoded lines).
- An exception raised by `list_objects_v2`, `generate_presigned_url` or the fetch itself (a connection error, say) would also be wrapped with the batch prefix. The listing and the fetches are inputs that always succeed with contents and a status, so these cases are not modelled.
- The `print` of a failed fetch is output only; it does not affect the result.
- Line splitting, blank-line filtering and `json.loads` happen before the model's input. A body that does not decode is an input flag (`records == None`, or `Returned(None)`) that raises `MalformedJson`.
- The pandas CSV written for training, and the CSV built from `test_durations` for the endpoint, are serialisation only.
- `json.dumps` of the response body and alert message is left out. Bodies and alerts are datatypes.
- Random Cut Forest training and endpoint deployment use an opaque managed service.
- The `invoke_endpoint` and SNS `publish` calls are outcomes supplied as inputs. The module-level clients, ARNs, bucket, region and endpoint name are configuration.
- Python's text-to-float parsing and the wording of built-in exception messages are abstract parameters.
- Python's `float()` of a JSON number (`Json.ToFloat`) keeps the number exact. Rounding to 64-bit floats, `inf` and `nan` are not modelled.
- JSON integers and floats are one `Number`. So the `'int'`/`'float'` type name in exception texts is not modelled (both are `NumberKind`). Neither is the OverflowError that `float()` raises on an integer beyond the double range: `ToFloat` returns the number instead.
- Dict key order is not modelled. It only matters when a non-empty dict is iterated, and every key then raises the same TypeError.
- A `ClientError` whose response lacks `Error.Message` would raise inside the handler's except clause. The model assumes botocore always supplies the message.

## Findings

| source | as written | input that shows it | evidently intended | confidence | as-written member | corrected member |
|---|---|---|---|---|---|---|
| LambdaForSagemakerEndpointInvocation.py:37 | `result.get('scores', result)` calls the dict method `get` on whatever the body decoded to | an endpoint body `[{"score": 0.5}]`: a list has no `get`, so the handler answers 500 "Unhandled error" | the fallback to `result` reads a body that is itself the list of score items | not executed; high | EndpointHandler.Handle, EndpointHandler.BareListRejectedAsWritten | EndpointHandler.HandleCorrected, EndpointHandler.BareListRead |

`EndpointHandler.ScoresAsWritten` is line 37 as written, and `EndpointHandler.Handle`,
the model of `lambda_handler`, uses it. `EndpointHandler.ReadScores` is the corrected
read, and `EndpointHandler.HandleCorrected` is the handler built on it. The two
handlers agree on every invocation except a bare-list body
(`EndpointHandler.HandleCorrectionOnlyTouchesLists`).

=== FILE: batch.dfy ===
/** The batch step of the training script: every listed log file is fetched, the
    files that came back with status 200 are decoded and their durations gathered
    in listing order, and an empty listing or an empty result is an error. */
module LogBatch {
  import opened Wrappers
  import opened Json
  import opened DurationExtractor

  const StatusOk := 200

  /** One listed object after its fetch: the HTTP status, and for a readable body
      its decoded lines (None when some non-blank line is not JSON). */
  datatype FetchedFile = FetchedFile(key: string, status: int, records: Option<seq<Value>>)

  /** Where the logs are listed from; it appears in the "no objects" message. */
  datatype Location = Location(bucket: string, prefix: string)

  /** Why the batch step raised. */
  datatype BatchError =
    | NoObjects               // the listing had no Contents, or an empty one
    | NoDurations             // every fetched file together gave no duration
    | Raised(fault: Fault)    // a built-in exception while decoding or extracting

  const ErrorPrefix := "Error processing S3 objects: "
  const NoDurationsText := "No valid durations extracted from any log files"

  /** What one listed file adds to the batch: nothing when its fetch failed. */
  function FileDurations(file: FetchedFile, parse: string -> Option<real>): (r: Result<seq<real>, Fault>)
    ensures file.status != StatusOk ==> r == Success([])
    ensures file.status == StatusOk && file.records.None? ==> r == Failure(MalformedJson)
    ensures file.status == StatusOk && file.records.Some? ==>
      (r.Success? <==> forall i :: 0 <= i < |file.records.value| ==> WellFormed(file.records.value[i], parse))
    ensures file.status == StatusOk && file.records.Some? && r.Success? ==>
      |r.value| == |Reports(file.records.value)|
  {
    if file.status != StatusOk then Success([])
    else
      match file.records
      case None => Failure(MalformedJson)
      case Some(log) =>
        ExtractSucceedsIff(log, parse);
        Extract(log, parse)
  }

  /** The loop over the listing, extending the durations file by file. A fetched
      file whose lines do not decode always raises, so success means every
      fetched file decoded. */
  function Collect(files: seq<FetchedFile>, parse: string -> Option<real>): (r: Result<seq<real>, Fault>)
    ensures r.Success? ==> AllDecoded(files)
    decreases |files|
  {
    if |files| == 0 then Success([])
    else Append(FileDurations(files[0], parse), Collect(files[1..], parse))
  }

  /** The whole try block: listing check, loop, and final emptiness check. */
  function Aggregate(contents: Option<seq<FetchedFile>>, parse: string -> Option<real>): (r: Result<seq<real>, BatchError>)
    ensures r == Failure(NoObjects) <==> contents.None? || |contents.value| == 0
    ensures r.Success? ==> |r.value| > 0
    ensures r == Failure(NoDurations) <==>
      contents.Some? && |contents.value| > 0 && Collect(contents.value, parse) == Success([])
    ensures r.Success? <==>
      contents.Some? && Collect(contents.value, parse).Success? && |Collect(contents.value, parse).value| > 0
    ensures r.Success? ==> r.value == Collect(contents.value, parse).value
    ensures contents.Some? && |contents.value| > 0 && Collect(contents.value, parse).Failure? ==>
      r == Failure(Raised(Collect(contents.value, parse).error))
  {
    if contents.None? || |contents.value| == 0 then Failure(NoObjects)
    else
      match Collect(contents.value, parse)
      case Failure(fault) => Failure(Raised(fault))
      case Success(durations) =>
        if |durations| == 0 then Failure(NoDurations) else Success(durations)
  }

  /** The text of the re-raised exception: every error, whatever its cause, is
      prefixed the same way. Built-in exception texts are `describe`'s. */
  function ErrorMessage(error: BatchError, location: Location, describe: Fault -> string): (m: string)
    ensures ErrorPrefix <= m
    ensures error == NoDurations ==> m == ErrorPrefix + NoDurationsText
    ensures error.Raised? ==> m == ErrorPrefix + describe(error.fault)
    ensures error == NoObjects ==>
      m == ErrorPrefix + "No objects found in s3://" + location.bucket + "/" + location.prefix
  {
    ErrorPrefix +
      match error
      case NoObjects => "No objects found in s3://" + location.bucket + "/" + location.prefix
      case NoDurations => NoDurationsText
      case Raised(fault) => describe(fault)
  }

  /** The files fetched with status 200, in listing order. */
  function Fetched(files: seq<FetchedFile>): (fetched: seq<FetchedFile>)
    ensures forall i :: 0 <= i < |fetched| ==> fetched[i].status == StatusOk
    decreases |files|
  {
    if |files| == 0 then []
    else (if files[0].status == StatusOk then [files[0]] else []) + Fetched(files[1..])
  }

  /** Every fetched file decoded cleanly. */
  predicate AllDecoded(files: seq<FetchedFile>) {
    forall i :: 0 <= i < |files| ==> files[i].status == StatusOk ==> files[i].records.Some?
  }

  /** The decoded entries of all fetched files, joined in listing order. */
  function JoinedLog(files: seq<FetchedFile>): seq<Value>
    decreases |files|
  {
    if |files| == 0 then []
    else
      (if files[0].status == StatusOk && files[0].records.Some? then files[0].records.value else [])
        + JoinedLog(files[1..])
  }

  /** The loop distributes over splitting the listing. */
  lemma {:induction false} CollectAppend(a: seq<FetchedFile>, b: seq<FetchedFile>, parse: string -> Option<real>)
    ensures Collect(a + b, parse) == Append(Collect(a, parse), Collect(b, parse))
    decreases |a|
  {
    if |a| == 0 {
      assert a + b == b;
      match Collect(b, parse)
      case Success(ys) => assert [] + ys == ys;
      case Failure(_) =>
    } else {
      assert (a + b)[0] == a[0];
      assert (a + b)[1..] == a[1..] + b;
      CollectAppend(a[1..], b, parse);
      AppendAssociative(FileDurations(a[0], parse), Collect(a[1..], parse), Collect(b, parse));
    }
  }

  /** Files whose fetch did not return 200 are skipped, not errors: the loop over
      the whole listing equals the loop over the fetched files alone. */
  lemma {:induction false} SkippedFilesIgnored(files: seq<FetchedFile>, parse: string -> Option<real>)
    ensures Collect(files, parse) == Collect(Fetched(files), parse)
    decreases |files|
  {
    if |files| > 0 {
      SkippedFilesIgnored(files[1..], parse);
      var head := if files[0].status == StatusOk then [files[0]] else [];
      CollectAppend(head, Fetched(files[1..]), parse);
      if files[0].status == StatusOk {
        assert head[1..] == [];
        assert Collect(head, parse) == Append(FileDurations(files[0], parse), Success([]));
        match FileDurations(files[0], parse)
        case Success(xs) => assert xs + [] == xs;
        case Failure(_) =>
      } else {
        match Collect(files[1..], parse)
        case Success(ys) => assert [] + ys == ys;
        case Failure(_) =>
      }
    }
  }

  /** Extending per file equals extracting once from every fetched file joined. */
  lemma {:induction false} CollectIsJoinedExtraction(files: seq<FetchedFile>, parse: string -> Option<real>)
    requires AllDecoded(files)
    ensures Collect(files, parse) == Extract(JoinedLog(files), parse)
    decreases |files|
  {
    if |files| > 0 {
      assert AllDecoded(files[1..]) by {
        forall i | 0 <= i < |files[1..]| ensures files[1..][i] == files[i + 1] { }
      }
      CollectIsJoinedExtraction(files[1..], parse);
      var own := if files[0].status == StatusOk && files[0].records.Some? then files[0].records.value else [];
      ExtractAppend(own, JoinedLog(files[1..]), parse);
      if files[0].status != StatusOk {
        assert Extract([], parse) == Success([]);
      }
    }
  }

  /** The batch step succeeds with exactly the durations of the joined fetched
      logs when those are non-empty, and otherwise raises the matching error. */
  lemma AggregateIsJoinedExtraction(files: seq<FetchedFile>, parse: string -> Option<real>)
    requires |files| > 0
    requires AllDecoded(files)
    ensures Aggregate(Some(files), parse) ==
      match Extract(JoinedLog(files), parse)
      case Failure(fault) => Failure(Raised(fault))
      case Success(durations) => if |durations| == 0 then Failure(NoDurations) else Success(durations)
  {
    CollectIsJoinedExtraction(files, parse);
  }

  /** A fault in a prefix of the listing is the fault of the whole listing. */
  lemma CollectPrefixFailure(files: seq<FetchedFile>, n: nat, parse: string -> Option<real>)
    requires n <= |files|
    requires Collect(files[..n], parse).Failure?
    ensures Collect(files, parse) == Collect(files[..n], parse)
  {
    CollectAppend(files[..n], files[n..], parse);
    assert files[..n] + files[n..] == files;
  }

  /** A one-file listing collects what that file contributes. */
  lemma CollectSingle(file: FetchedFile, parse: string -> Option<real>)
    ensures Collect([file], parse) == FileDurations(file, parse)
  {
    assert [file][1..] == [];
    match FileDurations(file, parse)
    case Success(xs) => assert xs + [] == xs;
    case Failure(_) =>
  }

  /** The try block as the script runs it. */
  method ReadBatch(contents: Option<seq<FetchedFile>>, parse: string -> Option<real>)
    returns (r: Result<seq<real>, BatchError>)
    ensures r == Aggregate(contents, parse)
  {
    if contents.None? || |contents.value| == 0 {
      return Failure(NoObjects);
    }
    var files := contents.value;
    var durations: seq<real> := [];
    for i := 0 to |files|
      invariant Collect(files[..i], parse) == Success(durations)
    {
      var file := files[i];
      CollectAppend(files[..i], [file], parse);
      CollectSingle(file, parse);
      assert files[..i + 1] == files[..i] + [file];
      if file.status == StatusOk {
        if file.records.None? {
          CollectPrefixFailure(files, i + 1, parse);
          return Failure(Raised(MalformedJson));
        }
        var extracted := ExtractDurations(file.records.value, parse);
        if extracted.Failure? {
          CollectPrefixFailure(files, i + 1, parse);
          return Failure(Raised(extracted.error));
        }
        durations := durations + extracted.value;
      } else {
        assert durations + [] == durations;
      }
    }
    assert files[..|files|] == files;
    if |durations| == 0 {
      return Failure(NoDurations);
    }
    return Success(durations);
  }
}

=== FILE: extractor.dfy ===
/** `extract_durations`: the durations carried by the REPORT entries of one decoded log file. */
module DurationExtractor {
  import opened Wrappers
  import opened Json

  const EventTypeKey := "eventType"
  const ReportEvent := "REPORT"
  const DurationKey := "durationMs"

  /** An entry the loop takes a duration from: a dict whose eventType is "REPORT"
      and that has a durationMs field. */
  predicate IsReport(entry: Value) {
    && entry.Object?
    && EventTypeKey in entry.fields
    && entry.fields[EventTypeKey] == Str(ReportEvent)
    && DurationKey in entry.fields
  }

  /** An entry the loop body gets through without raising: a dict that has an
      eventType, and, if it is a report, whose duration converts to a number. */
  predicate WellFormed(entry: Value, parse: string -> Option<real>) {
    && entry.Object?
    && EventTypeKey in entry.fields
    && (IsReport(entry) ==> ToFloat(entry.fields[DurationKey], parse).Some?)
  }

  /** The report entries of a log, in log order (the reference for what is extracted). */
  function Reports(log: seq<Value>): (reports: seq<Value>)
    ensures |reports| <= |log|
    ensures forall i :: 0 <= i < |reports| ==> IsReport(reports[i])
    decreases |log|
  {
    if |log| == 0 then []
    else (if IsReport(log[0]) then [log[0]] else []) + Reports(log[1..])
  }

  /** The loop body for one entry: `entry['eventType']` is indexed unconditionally,
      and a report contributes `float(entry['durationMs'])`. It raises exactly when
      the entry is not well formed; otherwise a report contributes its converted
      duration and any other entry nothing. */
  function EntryDurations(entry: Value, parse: string -> Option<real>): (r: Result<seq<real>, Fault>)
    ensures r.Success? <==> WellFormed(entry, parse)
    ensures r.Success? && !IsReport(entry) ==> r.value == []
    ensures r.Success? && IsReport(entry) ==> r.value == [ToFloat(entry.fields[DurationKey], parse).value]
    ensures !entry.Object? ==> r == Failure(NotSubscriptable(KindOf(entry)))
    ensures entry.Object? && EventTypeKey !in entry.fields ==> r == Failure(MissingKey(EventTypeKey))
    ensures IsReport(entry) && ToFloat(entry.fields[DurationKey], parse).None? ==>
      r == Failure(NotConvertible(entry.fields[DurationKey]))
  {
    var kind :- Subscript(entry, EventTypeKey);
    if kind == Str(ReportEvent) && DurationKey in entry.fields then
      var duration :- Float(entry.fields[DurationKey], parse);
      Success([duration])
    else
      Success([])
  }

  /** `extract_durations(log_data)`: the loop over all entries, stopping at the first raise. */
  function Extract(log: seq<Value>, parse: string -> Option<real>): (r: Result<seq<real>, Fault>)
    ensures r.Success? ==> |r.value| == |Reports(log)|
    decreases |log|
  {
    if |log| == 0 then Success([])
    else Append(EntryDurations(log[0], parse), Extract(log[1..], parse))
  }

  /** The extraction succeeds exactly when every entry is well formed; an entry
      without eventType is never silently skipped. */
  lemma {:induction false} ExtractSucceedsIff(log: seq<Value>, parse: string -> Option<real>)
    ensures Extract(log, parse).Success? <==> forall i :: 0 <= i < |log| ==> WellFormed(log[i], parse)
    decreases |log|
  {
    if |log| > 0 {
      ExtractSucceedsIff(log[1..], parse);
      assert forall i :: 1 <= i < |log| ==> log[i] == log[1..][i - 1];
    }
  }

  /** On success the result has one element per report entry, and the i-th element
      is the converted durationMs of the i-th report entry. */
  lemma {:induction false} ExtractContents(log: seq<Value>, parse: string -> Option<real>, durations: seq<real>)
    requires Extract(log, parse) == Success(durations)
    ensures |durations| == |Reports(log)|
    ensures forall i :: 0 <= i < |durations| ==>
      ToFloat(Reports(log)[i].fields[DurationKey], parse) == Some(durations[i])
    decreases |log|
  {
    if |log| > 0 {
      var head := EntryDurations(log[0], parse).value;
      var tail := Extract(log[1..], parse).value;
      ExtractContents(log[1..], parse, tail);
      assert durations == head + tail;
      assert Reports(log) == (if IsReport(log[0]) then [log[0]] else []) + Reports(log[1..]);
    }
  }

  /** On failure the error is the one raised by the first entry that is not well formed. */
  lemma {:induction false} ExtractFirstFault(log: seq<Value>, parse: string -> Option<real>, fault: Fault)
    requires Extract(log, parse) == Failure(fault)
    ensures exists k :: (&& 0 <= k < |log|
                         && (forall j :: 0 <= j < k ==> WellFormed(log[j], parse))
                         && !WellFormed(log[k], parse)
                         && EntryDurations(log[k], parse) == Failure(fault))
    decreases |log|
  {
    if EntryDurations(log[0], parse).Failure? {
      assert !WellFormed(log[0], parse);
    } else {
      ExtractFirstFault(log[1..], parse, fault);
      var k :| 0 <= k < |log[1..]| && (forall j :: 0 <= j < k ==> WellFormed(log[1..][j], parse))
        && !WellFormed(log[1..][k], parse) && EntryDurations(log[1..][k], parse) == Failure(fault);
      assert forall j :: 1 <= j < k + 1 ==> log[j] == log[1..][j - 1];
      assert log[k + 1] == log[1..][k];
    }
  }

  /** Extraction distributes over concatenation of logs: extracting per file and
      extending equals extracting from the files joined. */
  lemma {:induction false} ExtractAppend(a: seq<Value>, b: seq<Value>, parse: string -> Option<real>)
    ensures Extract(a + b, parse) == Append(Extract(a, parse), Extract(b, parse))
    decreases |a|
  {
    if |a| == 0 {
      assert a + b == b;
      match Extract(b, parse)
      case Success(ys) => assert [] + ys == ys;
      case Failure(_) =>
    } else {
      assert (a + b)[0] == a[0];
      assert (a + b)[1..] == a[1..] + b;
      ExtractAppend(a[1..], b, parse);
      AppendAssociative(EntryDurations(a[0], parse), Extract(a[1..], parse), Extract(b, parse));
    }
  }

  /** The Python loop itself: walks the entries, appending each report's duration. */
  method ExtractDurations(log: seq<Value>, parse: string -> Option<real>) returns (r: Result<seq<real>, Fault>)
    ensures r == Extract(log, parse)
  {
    var durations: seq<real> := [];
    for i := 0 to |log|
      invariant Extract(log[..i], parse) == Success(durations)
    {
      var entry := log[i];
      ExtractAppend(log[..i], [entry], parse);
      assert log[..i + 1] == log[..i] + [entry];
      ExtractSingle(entry, parse);
      if !entry.Object? {
        PrefixFailure(log, i + 1, parse);
        return Failure(NotSubscriptable(KindOf(entry)));
      }
      if EventTypeKey !in entry.fields {
        PrefixFailure(log, i + 1, parse);
        return Failure(MissingKey(EventTypeKey));
      }
      if entry.fields[EventTypeKey] == Str(ReportEvent) && DurationKey in entry.fields {
        var raw := entry.fields[DurationKey];
        var converted := ToFloat(raw, parse);
        if converted.None? {
          PrefixFailure(log, i + 1, parse);
          return Failure(NotConvertible(raw));
        }
        assert EntryDurations(entry, parse) == Success([converted.value]);
        durations := durations + [converted.value];
      } else {
        assert EntryDurations(entry, parse) == Success([]);
        assert durations + [] == durations;
      }
    }
    assert log[..|log|] == log;
    return Success(durations);
  }

  /** A one-entry log extracts what its entry contributes. */
  lemma ExtractSingle(entry: Value, parse: string -> Option<real>)
    ensures Extract([entry], parse) == EntryDurations(entry, parse)
  {
    assert [entry][1..] == [];
    match EntryDurations(entry, parse)
    case Success(xs) => assert xs + [] == xs;
    case Failure(_) =>
  }

  /** A fault raised inside a prefix of the log is the fault of the whole log. */
  lemma PrefixFailure(log: seq<Value>, n: nat, parse: string -> Option<real>)
    requires n <= |log|
    requires Extract(log[..n], parse).Failure?
    ensures Extract(log, parse) == Extract(log[..n], parse)
  {
    ExtractAppend(log[..n], log[n..], parse);
    assert log[..n] + log[n..] == log;
  }
}

=== FILE: handler.dfy ===
/** `lambda_handler`: score the configured durations at the endpoint, pair them with
    the returned scores, publish an alert when some score is above the threshold,
    and shape the HTTP-style response, mapping exceptions to status 500. */
module EndpointHandler {
  import opened Wrappers
  import opened Json
  import opened Scoring

  /** What a call to an external service did: returned a value, raised a
      botocore ClientError carrying the service's message, or raised anything else. */
  datatype CallOutcome<+T> = Returned(value: T) | ClientError(message: string) | OtherError(text: string)

  /** The notification handed to the publisher. */
  datatype Alert = Alert(subject: string, description: string, threshold: real, anomalies: seq<Observation>)

  /** The decoded response body: the full results or an error message. */
  datatype Body = Results(results: seq<Observation>) | Error(error: string)

  /** The dict the handler returns; error responses carry no headers. */
  datatype Response = Response(statusCode: int, headers: Option<map<string, string>>, body: Body)

  /** A handler call: its response and the alert it asked the publisher to send, if any. */
  datatype Run = Run(response: Response, published: Option<Alert>)

  const AlertDescription := "Anomalies detected in Lambda durations."
  const AlertSubject := "\U{26A0}\U{FE0F} Lambda Anomaly Alert"
  const JsonHeaders: map<string, string> := map["Content-Type" := "application/json"]
  const AwsErrorPrefix := "AWS error: "
  const UnhandledPrefix := "Unhandled error: "

  function Ok(output: seq<Observation>): Response {
    Response(200, Some(JsonHeaders), Results(output))
  }

  function AwsError(message: string): Response {
    Response(500, None, Error(AwsErrorPrefix + message))
  }

  function Unhandled(text: string): Response {
    Response(500, None, Error(UnhandledPrefix + text))
  }

  /** `float(item['score'])`. */
  function ScoreOf(item: Value, parse: string -> Option<real>): Result<real, Fault> {
    var score :- Subscript(item, "score");
    Float(score, parse)
  }

  /** `[float(item['score']) for item in items]`, raising at the first bad item. */
  function ScoresOf(items: seq<Value>, parse: string -> Option<real>): Result<seq<real>, Fault>
    decreases |items|
  {
    if |items| == 0 then Success([])
    else
      var first :- ScoreOf(items[0], parse);
      var rest :- ScoresOf(items[1..], parse);
      Success([first] + rest)
  }

  /** The comprehension run over any decoded value: a list yields its items, a
      string its characters and a dict its keys, and indexing a character or key
      with 'score' raises; scalars cannot be iterated. */
  function IterateScores(v: Value, parse: string -> Option<real>): Result<seq<real>, Fault> {
    match v
    case Array(items) => ScoresOf(items, parse)
    case Object(fields) => if |fields| == 0 then Success([]) else Failure(NotSubscriptable(StrKind))
    case Str(s) => if |s| == 0 then Success([]) else Failure(NotSubscriptable(StrKind))
    case _ => Failure(NotIterable(KindOf(v)))
  }

  /** Line 37 as written: `.get('scores', result)` is called on the decoded body
      whatever it is, so only a dict body is ever read, a bare list raises
      AttributeError, and the fallback to the body itself only reads an empty dict. */
  function ScoresAsWritten(result: Value, parse: string -> Option<real>): (r: Result<seq<real>, Fault>)
    ensures r.Success? ==> result.Object?
    ensures result.Array? ==> r.Failure?
    ensures r.Success? && "scores" !in result.fields ==> r.value == []
  {
    match result
    case Object(fields) => IterateScores(if "scores" in fields then fields["scores"] else result, parse)
    case _ => Failure(NoGetMethod(KindOf(result)))
  }

  /** Line 37 as evidently intended: the scores list under 'scores' of a dict
      body, or the body itself when it is a bare list. */
  function ReadScores(result: Value, parse: string -> Option<real>): (r: Result<seq<real>, Fault>)
    ensures r.Success? ==> result.Object? || result.Array?
    ensures result.Array? ==> r == ScoresAsWritten(Object(map["scores" := result]), parse)
    ensures !result.Array? ==> r == ScoresAsWritten(result, parse)
  {
    if result.Array? then IterateScores(result, parse) else ScoresAsWritten(result, parse)
  }

  /** An item yields a score exactly when it is a dict with a convertible 'score'. */
  predicate HasScore(item: Value, parse: string -> Option<real>) {
    item.Object? && "score" in item.fields && ToFloat(item.fields["score"], parse).Some?
  }

  /** The comprehension succeeds exactly when every item has a convertible score,
      and then returns those scores in item order. */
  lemma {:induction false} ScoresOfSpec(items: seq<Value>, parse: string -> Option<real>)
    ensures ScoresOf(items, parse).Success? <==> forall i :: 0 <= i < |items| ==> HasScore(items[i], parse)
    ensures ScoresOf(items, parse).Success? ==>
      && |ScoresOf(items, parse).value| == |items|
      && forall i :: 0 <= i < |items| ==>
           Some(ScoresOf(items, parse).value[i]) == ToFloat(items[i].fields["score"], parse)
    decreases |items|
  {
    if |items| > 0 {
      ScoresOfSpec(items[1..], parse);
      assert forall i :: 1 <= i < |items| ==> items[i] == items[1..][i - 1];
    }
  }

  /** A dict body with a 'scores' list is read item by item; an item without a
      'score' field, or with one that does not convert, makes the read fail.
      This is line 37 as written, which the handler runs. */
  lemma ScoresUnderKey(fields: map<string, Value>, items: seq<Value>, parse: string -> Option<real>)
    requires "scores" in fields && fields["scores"] == Array(items)
    ensures ScoresAsWritten(Object(fields), parse).Success? <==>
      forall i :: 0 <= i < |items| ==> HasScore(items[i], parse)
    ensures ScoresAsWritten(Object(fields), parse).Success? ==>
      && |ScoresAsWritten(Object(fields), parse).value| == |items|
      && forall i :: 0 <= i < |items| ==>
           Some(ScoresAsWritten(Object(fields), parse).value[i]) == ToFloat(items[i].fields["score"], parse)
  {
    ScoresOfSpec(items, parse);
  }

  /** The corrected read accepts a bare list of score items exactly as it accepts
      the same list under 'scores'. */
  lemma BareListRead(items: seq<Value>, parse: string -> Option<real>)
    ensures ReadScores(Array(items), parse).Success? <==>
      forall i :: 0 <= i < |items| ==> HasScore(items[i], parse)
    ensures ReadScores(Array(items), parse) == ReadScores(Object(map["scores" := Array(items)]), parse)
  {
    ScoresOfSpec(items, parse);
  }

  /** The correction only changes the outcome for bare-list bodies. */
  lemma CorrectionOnlyTouchesLists(result: Value, parse: string -> Option<real>)
    ensures !result.Array? ==> ReadScores(result, parse) == ScoresAsWritten(result, parse)
    ensures result.Array? ==> ScoresAsWritten(result, parse) == Failure(NoGetMethod(ListKind))
  {
  }

  /** The input that shows the defect: a bare list with one well-formed item. */
  lemma BareListRejectedAsWritten(parse: string -> Option<real>)
    ensures ScoresAsWritten(Array([Object(map["score" := Number(0.5)])]), parse).Failure?
    ensures ReadScores(Array([Object(map["score" := Number(0.5)])]), parse) == Success([0.5])
  {
    var items := [Object(map["score" := Number(0.5)])];
    assert ScoreOf(items[0], parse) == Success(0.5);
    assert items[1..] == [];
    assert ScoresOf(items, parse) == Success([0.5] + []);
    assert [0.5] + [] == [0.5];
    assert ReadScores(Array(items), parse) == ScoresOf(items, parse);
  }

  /** The handler after the scores were read: pair, select, publish when there are
      anomalies, and respond. A 200 always carries every pair; a publish that raises
      turns it into the 500 of its exception kind. */
  function Respond(durations: seq<real>, threshold: real, scores: seq<real>, publish: Alert -> CallOutcome<()>): (run: Run)
    ensures run.published.Some? ==>
      && |run.published.value.anomalies| > 0
      && run.published.value.threshold == threshold
      && (forall o :: o in run.published.value.anomalies ==> o.anomalyScore > threshold)
    ensures run.response.statusCode == 200 ==> run.response.body == Results(Zip(durations, scores))
    ensures run.published.Some? && publish(run.published.value).ClientError? ==>
      run.response == AwsError(publish(run.published.value).message)
    ensures run.published.Some? && publish(run.published.value).OtherError? ==>
      run.response == Unhandled(publish(run.published.value).text)
    ensures run.published.None? || publish(run.published.value).Returned? ==>
      run.response == Ok(Zip(durations, scores))
  {
    var output := Zip(durations, scores);
    var anomalies := Anomalies(output, threshold);
    if |anomalies| == 0 then Run(Ok(output), None)
    else
      var alert := Alert(AlertSubject, AlertDescription, threshold, anomalies);
      match publish(alert)
      case Returned(_) => Run(Ok(output), Some(alert))
      case ClientError(message) => Run(AwsError(message), Some(alert))
      case OtherError(text) => Run(Unhandled(text), Some(alert))
  }

  /** What the handler answers once the score read has run. */
  function Answer(
    durations: seq<real>, threshold: real, scores: Result<seq<real>, Fault>,
    publish: Alert -> CallOutcome<()>, describe: Fault -> string
  ): Run {
    match scores
    case Failure(fault) => Run(Unhandled(describe(fault)), None)
    case Success(scores) => Respond(durations, threshold, scores, publish)
  }

  /** Response properties both handler variants share. */
  predicate WellShaped(run: Run, threshold: real) {
    && (run.response.statusCode == 200 || run.response.statusCode == 500)
    && (run.response.statusCode == 200 <==> run.response.headers == Some(JsonHeaders))
    && (run.response.statusCode == 200 <==> run.response.body.Results?)
    && (run.response.statusCode == 500 ==> run.response.headers.None?)
    && (run.response.body.Error? ==>
          AwsErrorPrefix <= run.response.body.error || UnhandledPrefix <= run.response.body.error)
    && (run.published.Some? ==>
          && |run.published.value.anomalies| > 0
          && run.published.value.threshold == threshold
          && (forall o :: o in run.published.value.anomalies ==> o.anomalyScore > threshold))
  }

  /** `lambda_handler`, line 37 as written. `invocation` is what invoke_endpoint and
      the decoding of its body gave (None when the body is not JSON), `publish` is
      the SNS collaborator, and `describe` gives the text of built-in exceptions. */
  function Handle(
    durations: seq<real>,
    threshold: real,
    invocation: CallOutcome<Option<Value>>,
    publish: Alert -> CallOutcome<()>,
    parse: string -> Option<real>,
    describe: Fault -> string
  ): (run: Run)
    ensures WellShaped(run, threshold)
    ensures invocation.ClientError? ==> run == Run(AwsError(invocation.message), None)
    ensures invocation.OtherError? ==> run == Run(Unhandled(invocation.text), None)
    ensures invocation == Returned(None) ==> run == Run(Unhandled(describe(MalformedJson)), None)
    ensures invocation.Returned? && invocation.value.Some? && invocation.value.value.Array? ==>
      run == Run(Unhandled(describe(NoGetMethod(ListKind))), None)
    ensures invocation.Returned? && invocation.value.Some? && ScoresAsWritten(invocation.value.value, parse).Success? ==>
      run == Respond(durations, threshold, ScoresAsWritten(invocation.value.value, parse).value, publish)
    ensures invocation.Returned? && invocation.value.Some? && ScoresAsWritten(invocation.value.value, parse).Failure? ==>
      run == Run(Unhandled(describe(ScoresAsWritten(invocation.value.value, parse).error)), None)
  {
    match invocation
    case ClientError(message) => Run(AwsError(message), None)
    case OtherError(text) => Run(Unhandled(text), None)
    case Returned(None) => Run(Unhandled(describe(MalformedJson)), None)
    case Returned(Some(result)) => Answer(durations, threshold, ScoresAsWritten(result, parse), publish, describe)
  }

  /** `lambda_handler` with line 37 as evidently intended: a bare-list body is read
      like the same list under 'scores'. */
  function HandleCorrected(
    durations: seq<real>,
    threshold: real,
    invocation: CallOutcome<Option<Value>>,
    publish: Alert -> CallOutcome<()>,
    parse: string -> Option<real>,
    describe: Fault -> string
  ): (run: Run)
    ensures WellShaped(run, threshold)
    ensures invocation.ClientError? ==> run == Run(AwsError(invocation.message), None)
    ensures invocation.OtherError? ==> run == Run(Unhandled(invocation.text), None)
    ensures invocation == Returned(None) ==> run == Run(Unhandled(describe(MalformedJson)), None)
    ensures invocation.Returned? && invocation.value.Some? && ReadScores(invocation.value.value, parse).Success? ==>
      run == Respond(durations, threshold, ReadScores(invocation.value.value, parse).value, publish)
    ensures invocation.Returned? && invocation.value.Some? && ReadScores(invocation.value.value, parse).Failure? ==>
      run == Run(Unhandled(describe(ReadScores(invocation.value.value, parse).error)), None)
  {
    match invocation
    case ClientError(message) => Run(AwsError(message), None)
    case OtherError(text) => Run(Unhandled(text), None)
    case Returned(None) => Run(Unhandled(describe(MalformedJson)), None)
    case Returned(Some(result)) => Answer(durations, threshold, ReadScores(result, parse), publish, describe)
  }

  /** The corrected handler differs from the code only on bare-list bodies, where
      it answers exactly as the code does for the same list under 'scores'. */
  lemma HandleCorrectionOnlyTouchesLists(
    durations: seq<real>, threshold: real, invocation: CallOutcome<Option<Value>>,
    publish: Alert -> CallOutcome<()>, parse: string -> Option<real>, describe: Fault -> string)
    ensures !(invocation.Returned? && invocation.value.Some? && invocation.value.value.Array?) ==>
      HandleCorrected(durations, threshold, invocation, publish, parse, describe)
        == Handle(durations, threshold, invocation, publish, parse, describe)
    ensures invocation.Returned? && invocation.value.Some? && invocation.value.value.Array? ==>
      HandleCorrected(durations, threshold, invocation, publish, parse, describe)
        == Handle(durations, threshold, Returned(Some(Object(map["scores" := invocation.value.value]))), publish, parse, describe)
  {
  }

  /** An alert carrying the fixed subject and text, the threshold and exactly the
      anomalies is handed to the publisher if and only if some paired score is
      strictly above the threshold. */
  lemma AlertIffAnomalies(durations: seq<real>, threshold: real, scores: seq<real>, publish: Alert -> CallOutcome<()>)
    ensures Respond(durations, threshold, scores, publish).published.Some? <==>
      exists i :: 0 <= i < Min(|durations|, |scores|) && scores[i] > threshold
    ensures Respond(durations, threshold, scores, publish).published.Some? ==>
      Respond(durations, threshold, scores, publish).published.value
        == Alert(AlertSubject, AlertDescription, threshold, Anomalies(Zip(durations, scores), threshold))
  {
    AnomaliesNonEmptyIff(durations, scores, threshold);
  }

  /** When the one alert due (if any) is published, the response is 200 with every pair,
      anomalous or not, whether or not an alert went out. */
  lemma SuccessCarriesAllPairs(durations: seq<real>, threshold: real, scores: seq<real>, publish: Alert -> CallOutcome<()>)
    requires var anomalies := Anomalies(Zip(durations, scores), threshold);
      |anomalies| > 0 ==> publish(Alert(AlertSubject, AlertDescription, threshold, anomalies)).Returned?
    ensures var response := Respond(durations, threshold, scores, publish).response;
      && response.statusCode == 200
      && response.headers == Some(JsonHeaders)
      && response.body.Results?
      && |response.body.results| == Min(|durations|, |scores|)
      && forall i :: 0 <= i < |response.body.results| ==>
           response.body.results[i] == Observation(durations[i], scores[i])
  {
  }

  /** A failed publish of the alert due aborts the otherwise successful response:
      a ClientError becomes an "AWS error: " response. */
  lemma PublishFailureIsFatal(
    durations: seq<real>, threshold: real, scores: seq<real>, publish: Alert -> CallOutcome<()>, message: string)
    requires var anomalies := Anomalies(Zip(durations, scores), threshold);
      |anomalies| > 0 && publish(Alert(AlertSubject, AlertDescription, threshold, anomalies)) == ClientError(message)
    ensures Respond(durations, threshold, scores, publish).response == AwsError(message)
  {
  }

  /** Without anomalies the publisher is never consulted: any two publishers give
      the same run, a 200 with all pairs and no alert. */
  lemma QuietRunIgnoresPublisher(
    durations: seq<real>, threshold: real, scores: seq<real>,
    publish1: Alert -> CallOutcome<()>, publish2: Alert -> CallOutcome<()>)
    requires forall i :: 0 <= i < Min(|durations|, |scores|) ==> scores[i] <= threshold
    ensures Respond(durations, threshold, scores, publish1) == Respond(durations, threshold, scores, publish2)
    ensures Respond(durations, threshold, scores, publish1) == Run(Ok(Zip(durations, scores)), None)
  {
    AnomaliesNonEmptyIff(durations, scores, threshold);
  }
}

=== FILE: json.dfy ===
/** Decoded JSON values, as `json.loads` hands them to the Python code, and the
    few built-in Python operations the modelled code applies to them. */
module Json {
  import opened Wrappers

  /** A decoded JSON document. Numbers are kept exact; object key order is not kept. */
  datatype Value =
    | Null
    | Bool(b: bool)
    | Number(n: real)
    | Str(s: string)
    | Array(items: seq<Value>)
    | Object(fields: map<string, Value>)

  /** The Python type of a decoded value, as a TypeError names it; JSON integers and
      floats share `NumberKind`, so `'int'` and `'float'` are not told apart. */
  datatype Kind = NullKind | BoolKind | NumberKind | StrKind | ListKind | DictKind

  function KindOf(v: Value): Kind {
    match v
    case Null => NullKind
    case Bool(_) => BoolKind
    case Number(_) => NumberKind
    case Str(_) => StrKind
    case Array(_) => ListKind
    case Object(_) => DictKind
  }

  /** The built-in exceptions the modelled code can raise on decoded data. */
  datatype Fault =
    | MalformedJson                   // json.loads rejected its input
    | MissingKey(key: string)         // KeyError from indexing a dict
    | NotSubscriptable(kind: Kind)    // TypeError from indexing a non-dict with a string
    | NotIterable(kind: Kind)         // TypeError from iterating a scalar
    | NotConvertible(value: Value)    // float() raised TypeError or ValueError
    | NoGetMethod(kind: Kind)         // AttributeError from calling .get on a non-dict

  /** Python's `float(v)` on a decoded value: numbers convert exactly, booleans
      to 1.0 and 0.0, strings through `parse`, and null, lists and dicts raise. */
  function ToFloat(v: Value, parse: string -> Option<real>): Option<real> {
    match v
    case Null => None
    case Bool(b) => Some(if b then 1.0 else 0.0)
    case Number(n) => Some(n)
    case Str(s) => parse(s)
    case Array(_) => None
    case Object(_) => None
  }

  /** `float(v)` as a raising operation. */
  function Float(v: Value, parse: string -> Option<real>): Result<real, Fault> {
    match ToFloat(v, parse)
    case Some(x) => Success(x)
    case None => Failure(NotConvertible(v))
  }

  /** `v[key]`: only a dict holding `key` yields a value. */
  function Subscript(v: Value, key: string): Result<Value, Fault> {
    match v
    case Object(fields) =>
      if key in fields then Success(fields[key]) else Failure(MissingKey(key))
    case _ => Failure(NotSubscriptable(KindOf(v)))
  }
}

=== FILE: scoring.dfy ===
/** Pairing of durations with the scores the endpoint returned, and the strict
    threshold test that picks the anomalies among them. */
module Scoring {

  /** One entry of the handler's `output` list. */
  datatype Observation = Observation(duration: real, anomalyScore: real)

  const AnomalyThreshold: real := 1.0

  function Min(a: nat, b: nat): nat {
    if a <= b then a else b
  }

  /** Python's `zip(durations, scores)`: positional pairs, stopping at the shorter list. */
  function Zip(durations: seq<real>, scores: seq<real>): (output: seq<Observation>)
    ensures |output| == Min(|durations|, |scores|)
    ensures forall i :: 0 <= i < |output| ==> output[i] == Observation(durations[i], scores[i])
    decreases |durations|
  {
    if |durations| == 0 || |scores| == 0 then []
    else [Observation(durations[0], scores[0])] + Zip(durations[1..], scores[1..])
  }

  /** Strictly above the threshold: a score equal to it is normal. */
  predicate IsAnomaly(o: Observation, threshold: real) {
    o.anomalyScore > threshold
  }

  /** The handler's `anomalies` list comprehension: it keeps at most every entry,
      and only entries scored strictly above the threshold. */
  function Anomalies(output: seq<Observation>, threshold: real): (anomalies: seq<Observation>)
    ensures |anomalies| <= |output|
    ensures forall i :: 0 <= i < |anomalies| ==> anomalies[i].anomalyScore > threshold
    decreases |output|
  {
    if |output| == 0 then []
    else (if IsAnomaly(output[0], threshold) then [output[0]] else []) + Anomalies(output[1..], threshold)
  }

  /** The entries the comprehension leaves out. */
  function Normals(output: seq<Observation>, threshold: real): seq<Observation>
    decreases |output|
  {
    if |output| == 0 then []
    else (if IsAnomaly(output[0], threshold) then [] else [output[0]]) + Normals(output[1..], threshold)
  }

  /** `sub` can be obtained from `full` by deleting elements, keeping the order of the rest. */
  predicate IsSubsequence<T(==)>(sub: seq<T>, full: seq<T>)
    decreases |full|
  {
    if |sub| == 0 then true
    else if |full| == 0 then false
    else (sub[0] == full[0] && IsSubsequence(sub[1..], full[1..])) || IsSubsequence(sub, full[1..])
  }

  /** An entry is among the anomalies exactly when it is in the output and its score
      is strictly above the threshold. */
  lemma {:induction false} AnomalyMembership(output: seq<Observation>, threshold: real, o: Observation)
    ensures o in Anomalies(output, threshold) <==> o in output && o.anomalyScore > threshold
    decreases |output|
  {
    if |output| > 0 {
      AnomalyMembership(output[1..], threshold, o);
      assert output == [output[0]] + output[1..];
    }
  }

  /** The score equal to the threshold is the boundary case: such an entry is never an anomaly. */
  lemma ThresholdIsNormal(output: seq<Observation>, threshold: real, o: Observation)
    requires o in output && o.anomalyScore == threshold
    ensures o !in Anomalies(output, threshold)
    ensures o in Normals(output, threshold)
  {
    AnomalyMembership(output, threshold, o);
    NormalMembership(output, threshold, o);
  }

  /** An entry is left out exactly when it is in the output and its score is at most the threshold. */
  lemma {:induction false} NormalMembership(output: seq<Observation>, threshold: real, o: Observation)
    ensures o in Normals(output, threshold) <==> o in output && o.anomalyScore <= threshold
    decreases |output|
  {
    if |output| > 0 {
      NormalMembership(output[1..], threshold, o);
      assert output == [output[0]] + output[1..];
    }
  }

  /** The anomalies keep their relative order: they form a subsequence of the output. */
  lemma {:induction false} AnomaliesAreSubsequence(output: seq<Observation>, threshold: real)
    ensures IsSubsequence(Anomalies(output, threshold), output)
    decreases |output|
  {
    if |output| > 0 {
      AnomaliesAreSubsequence(output[1..], threshold);
      var rest := Anomalies(output[1..], threshold);
      if IsAnomaly(output[0], threshold) {
        assert Anomalies(output, threshold) == [output[0]] + rest;
        assert ([output[0]] + rest)[1..] == rest;
      } else {
        assert Anomalies(output, threshold) == rest;
        if |rest| > 0 {
          assert IsSubsequence(rest, output);
        }
      }
    }
  }

  /** Anomalies and normal entries split the output: together they hold every entry
      exactly as often as the output does. */
  lemma {:induction false} AnomaliesPartition(output: seq<Observation>, threshold: real)
    ensures multiset(Anomalies(output, threshold)) + multiset(Normals(output, threshold)) == multiset(output)
    ensures |Anomalies(output, threshold)| + |Normals(output, threshold)| == |output|
    decreases |output|
  {
    if |output| > 0 {
      AnomaliesPartition(output[1..], threshold);
      assert output == [output[0]] + output[1..];
      assert multiset(output) == multiset([output[0]]) + multiset(output[1..]);
    }
  }

  /** The comprehension distributes over concatenation of outputs. */
  lemma {:induction false} AnomaliesAppend(a: seq<Observation>, b: seq<Observation>, threshold: real)
    ensures Anomalies(a + b, threshold) == Anomalies(a, threshold) + Anomalies(b, threshold)
    decreases |a|
  {
    if |a| == 0 {
      assert a + b == b;
    } else {
      assert (a + b)[0] == a[0];
      assert (a + b)[1..] == a[1..] + b;
      AnomaliesAppend(a[1..], b, threshold);
    }
  }

  /** There is some anomaly exactly when some paired score is strictly above the threshold. */
  lemma AnomaliesNonEmptyIff(durations: seq<real>, scores: seq<real>, threshold: real)
    ensures |Anomalies(Zip(durations, scores), threshold)| > 0 <==>
      exists i :: 0 <= i < Min(|durations|, |scores|) && scores[i] > threshold
  {
    var output := Zip(durations, scores);
    if |Anomalies(output, threshold)| > 0 {
      var o := Anomalies(output, threshold)[0];
      AnomalyMembership(output, threshold, o);
      var i :| 0 <= i < |output| && output[i] == o;
      assert scores[i] > threshold;
    }
    if exists i :: 0 <= i < Min(|durations|, |scores|) && scores[i] > threshold {
      var i :| 0 <= i < Min(|durations|, |scores|) && scores[i] > threshold;
      AnomalyMembership(output, threshold, output[i]);
    }
  }

  /** The handler's built-in test durations and threshold, paired with example
      scores: only the 100.0 ms invocation is anomalous. */
  lemma SampleScenario()
    ensures Anomalies(Zip([2.62, 2.07, 1.92, 100.0, 0.5, 10.0], [0.1, 0.1, 0.2, 5.0, 0.05, 0.3]), AnomalyThreshold)
      == [Observation(100.0, 5.0)]
  {
    var output := Zip([2.62, 2.07, 1.92, 100.0, 0.5, 10.0], [0.1, 0.1, 0.2, 5.0, 0.05, 0.3]);
    assert output == [Observation(2.62, 0.1), Observation(2.07, 0.1), Observation(1.92, 0.2),
                      Observation(100.0, 5.0), Observation(0.5, 0.05), Observation(10.0, 0.3)];
    assert output[1..][1..][1..][1..][1..][1..] == [];
  }
}

=== FILE: wrappers.dfy ===
/** Failure-carrying datatypes shared by the whole model. */
module Wrappers {

  /** A value that may be absent. */
  datatype Option<+T> = None | Some(value: T)

  /** The outcome of a computation that either produces a value or raises an error. */
  datatype Result<+T, +E> = Success(value: T) | Failure(error: E) {

    predicate IsFailure() {
      Failure?
    }

    function PropagateFailure<U>(): Result<U, E>
      requires Failure?
    {
      Failure(error)
    }

    function Extract(): T
      requires Success?
    {
      value
    }
  }

  /** Runs two sequence-producing steps in order and concatenates what they produce;
      the first step that fails decides the error, as an exception would. */
  function Append<T, E>(first: Result<seq<T>, E>, second: Result<seq<T>, E>): Result<seq<T>, E> {
    match first
    case Failure(e) => Failure(e)
    case Success(xs) =>
      match second
      case Failure(e) => Failure(e)
      case Success(ys) => Success(xs + ys)
  }

  lemma AppendAssociative<T, E>(x: Result<seq<T>, E>, y: Result<seq<T>, E>, z: Result<seq<T>, E>)
    ensures Append(Append(x, y), z) == Append(x, Append(y, z))
  {
    if x.Success? && y.Success? && z.Success? {
      assert (x.value + y.value) + z.value == x.value + (y.value + z.value);
    }
  }
}
